=== FILE: README.md ===
# JASC palette codec — a Dafny model

This project models the palette codec in `src/Palette.js`. The codec reads
and writes JASC Paint Shop Pro palette files (`.pal`). The layout of such a
file is:
- line 0 is a format tag (`JASC-PAL`);
- line 1 is a version;
- line 2 is a declared colour count;
- line 3 may be a `$ALPHA <value>` directive;
- every later line is a colour entry of integers separated by white space, a
  `#` comment, or blank.

The model covers four parts of the source:
- `parse`, which reads source text into a palette;
- the constructor's array branch, which builds a palette from raw colour data;
- the getters and setters;
- `toString`, which writes a palette back as text.

It also proves what a write followed by a read gives back.

The modules follow the structure of the program:

- `Results` — `Option` and `Result`, with the failure propagation that `:-` uses.
- `Text` — JavaScript's `String.prototype.split` for the three separators the
  codec uses, and `Array.prototype.join`.
  - `/\r?\n/` is modelled with leftmost matching, so a lone carriage return
    stays in its line.
  - `/\s+/` uses ECMAScript's full `\s` class and takes each run of white
    space whole.
  - `' '` splits on a single character.
- `Numbers` — `parseInt(x, 10)` restricted to well-formed numerals, and the
  decimal rendering of an integer.
- `Palettes` — the palette record, `Palette(array)`, and the accessors and
  mutators.
- `Codec` — `parse` as `Parse`, and `toString` as `ToText`. `Parse` splits
  the text into lines and reads them with `ParseLines`. A parse either
  succeeds or names its error:
  - `TooFewLines`: there is no line 3.
  - `MalformedHeader(2)`: the count on line 2 is not a numeral.
  - `MalformedHeader(3)`: the alpha directive's value is not a numeral.
  - `MalformedColorEntry(i)`: entry line `i` has a token that is not a numeral.
  - `EmptyPalette`: there is no entry line, so there is no first colour to
    take the channel count from.
- `RoundTrip` — lemmas relating `ToText` and `Parse`, and the parser's
  indifference to blank and comment lines.

The palette is an immutable value. A mutator returns the updated palette,
where the source mutates `this` and returns it for chaining. The getters
`GetFormat`, `GetFixedAlpha`, `GetNumColors` and `GetNumChannels` are plain
field reads. `GetColor` reads a slot of the table and gives `None` outside it,
where the source gives `undefined`. What the getters return is stated in the contracts
of `FromColors`, `SetColor`, `SetFixedAlpha` and `ParseLines`.

In these places the model follows the code, whose behaviour a reader may not
expect:
- An absent format is written as the text `undefined`, because the source
  concatenates `undefined` into a string. It reads back as the format
  `"undefined"`; see `FromColorsRoundTrip`.
- The value of the alpha directive is the second piece of line 3 split on
  single spaces, not on runs of white space.
- The alpha directive is written only when the fixed alpha is truthy, so a
  fixed alpha of 0 is not written and comes back absent.
- `getColor` outside the table returns `undefined` (`None` here); it raises
  no error.

The round-trip lemmas hold for writable palettes (`RoundTrip.Writable`): the
written format and the version hold no line feed and do not end in a carriage
return, there is at least one entry, and no entry is empty. The source's round
trip really does break when one of these fails:
- A line feed inside the format or the version shifts every later line.
- A carriage return at the end of the format or the version joins the line
  feed written after it into one `\r\n` separator, so it is lost on reading.
  A carriage return anywhere else stays in its line and comes back.
- An empty entry writes a blank line, which the parser skips.
- A palette without entries writes no entry line, so it does not parse.

## Model

| member | source | states |
|---|---|---|
| Codec.ParseLines | src/Palette.js:56-82 | Reading the lines of a text fails with `TooFewLines` exactly when there are fewer than four. On success, the format is line 0 and the version is line 1, both verbatim. The declared count is line 2 read as an integer, whatever the number of entries. The fixed alpha is present exactly when line 3 starts with `$`, and is then the directive's value. There is at least one colour, and the channel count is the first colour's length. |
| Codec.Parse | src/Palette.js:51-82 | No contract of its own: it splits the text with `Text.SplitLines` and reads the lines with `Codec.ParseLines`, whose contract and lemmas state the result. |
| Codec.ReadAlpha | src/Palette.js:63-67 | Reading line 3 fails, with `MalformedHeader(3)`, exactly when it is a `$` directive whose value is not a numeral. Otherwise it gives a fixed alpha exactly when the line is a directive, and that alpha is the directive's value. |
| Codec.AlphaValue | src/Palette.js:65 | No contract of its own: the second piece of the line split on single spaces, read as an integer. `RoundTrip.AlphaDirectiveReads` states that a written directive reads back. |
| Codec.ReadEntries | src/Palette.js:70-77 | A failure of the entry loop is always a `MalformedColorEntry`. Which lines it reads and what it yields are stated by `ContentIndicesExact`, `EntriesSucceedExactly`, `EntriesAreContentRows` and `EntriesFailAtFirstBadRow`. |
| Codec.ParseEntries | src/Palette.js:70-77 | No contract of its own: the entry loop with `ParseRow` as its reader, so the `ReadEntries` lemmas state its result. |
| Codec.ParseRow | src/Palette.js:76 | No contract of its own: the line split on white space runs, each piece read as an integer. `ParseIntsReadsEach` states when that succeeds and what it yields, and `RoundTrip.AcceptedRowNonEmpty` that an accepted row is non-empty. |
| Codec.ToText | src/Palette.js:114-127 | No contract of its own: the lines of the written text are stated by `RoundTrip.ToTextLines`, and their reading by the round-trip lemmas. |
| Codec.RowText | src/Palette.js:124 | No contract of its own: the entry's values written as integers and joined by single spaces. `RoundTrip.RowTextParses` states that a non-empty entry reads back as itself. |
| Codec.ParseSucceedsExactly | src/Palette.js:56-79 | The lines of a text read as a palette if and only if all of these hold: there are at least four lines, line 2 is a numeral, a `$` line 3 carries a numeral, every content line reads as a row, and there is at least one content line. It fails with `MalformedHeader(2)` exactly when there are at least four lines and line 2 is not a numeral. It fails with `MalformedHeader(3)` exactly when there are at least four lines, line 2 is a numeral, and line 3 is a `$` directive whose value is not. A failure with `EmptyPalette` means there are at least four lines but no content line. |
| Codec.ParseColors | src/Palette.js:70-77 | The parsed colours correspond one to one, in line order, to the non-blank, non-comment lines from the entry start on. Each colour is its line's tokens read as integers. |
| Codec.ParseFailsAtFirstBadRow | src/Palette.js:70-77 | A `MalformedColorEntry` failure names a content line at or after the entry start that does not read as a row. Every earlier content line does read as a row. |
| Codec.ContentIndicesExact | src/Palette.js:70-74 | The lines the entry loop reads are exactly those from the start on that are neither blank nor `#` comments, in strictly increasing order. |
| Codec.EntriesSucceedExactly | src/Palette.js:70-77 | The entry loop succeeds if and only if every content line reads as a row. |
| Codec.EntriesAreContentRows | src/Palette.js:70-77 | On success the loop yields one entry per content line, in line order, each that line's reading. |
| Codec.EntriesFailAtFirstBadRow | src/Palette.js:70-77 | A loop failure names the first content line that does not read as a row. |
| Codec.ParseIntsReadsEach | src/Palette.js:76 | Reading a line's tokens succeeds if and only if every token is a numeral. It then gives one integer per token, in order. |
| Text.SplitLines | src/Palette.js:54 | Splitting on `\r?\n` gives at least one line, and no line holds a line feed. |
| Text.SplitLinesCount | src/Palette.js:54 | Splitting on `\r?\n` gives exactly one more line than the text has line feeds. |
| Text.SplitLinesJoinLf | src/Palette.js:54 | One or more lines without line breaks, joined by `\n`, split back into the same lines. |
| Text.SplitLinesJoinCrLf | src/Palette.js:54 | One or more lines without line feeds, joined by `\r\n`, split back into the same lines. |
| Text.SplitOn | src/Palette.js:65 | A split on a single character gives at least one piece. The pieces are stated by `SplitOnNoSeparator` and `SplitOnJoin`. |
| Text.SplitOnNoSeparator | src/Palette.js:65 | No piece of a split on a single character holds that character. |
| Text.SplitOnJoin | src/Palette.js:65 | Joining the pieces of a split on a single character back with that character gives the text. |
| Text.SplitWs | src/Palette.js:76 | A split on white space runs gives at least one piece. The pieces are stated by `SplitWsPieces`, `SplitWsLeadingRun`, `SplitWsAfterRun` and `SplitWsJoin`. |
| Text.JoinWith | src/Palette.js:124 | No contract of its own: `Array.prototype.join`. `SplitOnJoin`, `SplitLinesJoinLf`, `SplitLinesJoinCrLf` and `SplitWsJoin` state that the matching split undoes it. |
| Text.SplitWsPieces | src/Palette.js:76 | No piece of a white-space split holds white space. Only the first and last pieces can be empty, and the first is non-empty when the text starts with a non-space. |
| Text.SplitWsLeadingRun | src/Palette.js:76 | A text that starts with a run of white space, of any length and of any `\s` characters, and continues with a string that is empty or does not start with white space, splits into an empty first piece followed by the pieces of that string. |
| Text.SplitWsAfterRun | src/Palette.js:76 | A piece without white space, then a run of white space of any length and of any `\s` characters, then a string that is empty or does not start with white space, splits into that piece followed by the pieces of that string. The whole run is one separator, where the alpha directive's split on `' '` (line 65) would leave empty pieces. |
| Text.SplitWsJoin | src/Palette.js:76 | One or more non-empty tokens without white space, joined by single spaces, split on white space back into the same tokens. |
| Numbers.ParseInt | src/Palette.js:59 | A value is read exactly when the text is an optional sign followed by at least one digit. A leading `-` gives a value at most zero; anything else gives a value at least zero. |
| Numbers.ParseIntLeadingZero | src/Palette.js:59 | A non-empty digit string (no sign) with an extra leading zero reads as the same value as without it. |
| Numbers.ParseIntPlus | src/Palette.js:59 | A non-empty digit string with a leading `+` reads as the same value as without it. |
| Numbers.ParseIntMinus | src/Palette.js:59 | A non-empty digit string with a leading `-` reads as the negation of its value without it. |
| Numbers.IntToString | src/Palette.js:118 | An integer is written as a non-empty text of digits, with an optional leading `-`. |
| Numbers.IntToStringParses | src/Palette.js:118 | A written integer reads back with `ParseInt` as the same integer. |
| Numbers.IntToStringIsCanonical | src/Palette.js:118 | A written integer is canonical: digits without a superfluous leading zero, with a `-` only before a non-zero magnitude. |
| Numbers.CanonicalNumeralRoundTrip | src/Palette.js:59 | A canonical numeral reads as an integer that is written back as the same text. With `IntToStringParses` and `IntToStringIsCanonical`, writing is a one-to-one correspondence between integers and canonical numerals. |
| Palettes.FromColors | src/Palette.js:31-33 | A palette built from raw colours holds exactly those entries. Its declared count is their number and its version is `0100`. It has no format, fixed alpha or channel count. |
| Palettes.GetColor | src/Palette.js:84-86 | Reading slot `i` gives a colour exactly when `i` is inside the table, and that colour is the entry at `i`. Outside the table it gives `None`, the source's `undefined`. |
| Palettes.GetFormat | src/Palette.js:93-95 | No contract of its own: a field read. What it returns is stated by `FromColors`, `SetColor`, `SetFixedAlpha` and `Codec.ParseLines`. |
| Palettes.GetFixedAlpha | src/Palette.js:97-99 | No contract of its own: a field read, stated by the same contracts as `GetFormat`. |
| Palettes.GetNumColors | src/Palette.js:106-108 | No contract of its own: a field read of the declared count, not the length of the table, stated by the same contracts as `GetFormat`. |
| Palettes.GetNumChannels | src/Palette.js:110-112 | No contract of its own: a field read, stated by the same contracts as `GetFormat`. |
| Palettes.SetColor | src/Palette.js:88-91 | After setting slot `i`, reading slot `i` gives the new colour. Every other slot reads as before, the table keeps its length, and the header fields are unchanged. |
| Palettes.SetFixedAlpha | src/Palette.js:101-104 | After setting the fixed alpha, reading it gives the new value. The colours and the other header fields are unchanged. |
| RoundTrip.ToTextLines | src/Palette.js:114-127 | When the written format and the version each hold no line feed and do not end in a carriage return, the written text splits into format, version, the number of entries, the alpha directive when written, and then one line per entry. With no entries the text ends in one empty line. |
| RoundTrip.RowTextParses | src/Palette.js:124 | A written non-empty colour entry reads back as the same entry. |
| RoundTrip.AlphaDirectiveReads | src/Palette.js:121 | A written alpha directive is recognised as one, and its value reads back as the written alpha. |
| RoundTrip.ParseToText | src/Palette.js:114-127 | Parsing the text of a writable palette succeeds. Version and colours come back unchanged, and the format comes back as the text written for it. The fixed alpha comes back unless it was zero. The declared count becomes the number of entries and the channel count the first entry's length. |
| RoundTrip.PaletteSurvivesRoundTrip | src/Palette.js:114-127 | A writable palette with a format and a non-zero or absent fixed alpha comes back as itself. The only changes are that the declared count becomes the number of entries and the channel count the first entry's length. |
| RoundTrip.AcceptedRowNonEmpty | src/Palette.js:76 | A line that reads as a row gives a non-empty colour, because a white-space split always has a piece and every piece must be a numeral. |
| RoundTrip.ParsedPaletteSurvivesRoundTrip | src/Palette.js:51-127 | A palette parsed from lines whose format and version lines hold no line feed and do not end in a carriage return, and whose fixed alpha is not zero, is written and re-read as itself, except that the declared count becomes the number of entries. |
| RoundTrip.ZeroAlphaIsDropped | src/Palette.js:120-122 | For a writable palette, a fixed alpha of zero is not written, so the palette read back has no fixed alpha. Everything else comes back as from any other write and re-read. |
| RoundTrip.FromColorsRoundTrip | src/Palette.js:31-33 | A palette built from one or more raw colours, each non-empty, and written, then re-read, has the format `undefined`, version `0100`, no fixed alpha, and the same colours. |
| RoundTrip.ToTextIsFixpoint | src/Palette.js:114-127 | For a writable palette, writing the palette re-read from its text gives that text again. |
| RoundTrip.SkippedLineIgnoredByEntries | src/Palette.js:71-74 | Inserting a blank or comment line among the entry lines changes neither the loop's success nor the entries it reads. |
| RoundTrip.SkippedLineIgnoredByParse | src/Palette.js:70-74 | Four or more lines with a blank or comment line inserted at or after the first entry line read exactly as the lines without it: the same success, and the same palette. |

## Left out

- Decoding a `Buffer` as ASCII (line 36) is a byte-to-string conversion done by Node's `Buffer.toString`, which is not part of this model. The model's parser takes the decoded text.
- Constructor plumbing is left out because it only binds JavaScript objects:
  - the `new`-less call (line 26);
  - binding the prototype methods and the version onto the returned array (lines 41-48).

  The `Palette` record stands for that shared state.
- A falsy argument becoming an empty array (line 28) is left to the caller, who writes `FromColors([])`.
- The aliasing of the caller's array with the palette's table (line 33) is not modelled, because the palette is an immutable value.
- Returning `this` for chaining (lines 90 and 103) is replaced by returning the updated palette.
- Palettes.SetColor: requires the index to be inside the table. The source's assignment at or past the end grows a sparse array, which has no counterpart in a sequence of colours.
- Numbers.ParseInt: reads only well-formed numerals. It does not model `parseInt`'s skipping of leading white space, its reading of a numeric prefix followed by other text (`"12ab"` reads as 12), or its `NaN` result.
- Codec.ParseLines: where the source would store `NaN` as the declared count, the fixed alpha or a channel value, the model fails with `MalformedHeader(2)`, `MalformedHeader(3)` or `MalformedColorEntry`.
  - Where the source throws a `TypeError`, the model fails with `TooFewLines` (no line 3) or `EmptyPalette` (no first colour).
- Numbers.IntToString: writes exact decimal digits for every integer. JavaScript's exponent notation from 1e21 upwards is not modelled, and neither is the loss of precision above 2^53 in `parseInt` and in number rendering.
- Values other than integers (strings, floating-point numbers, `null`) given to `setColor` or `setFixedAlpha` are not modelled. Colours are sequences of integers and the fixed alpha is an optional integer.
- Channel values are not range-checked (0-255), as in the source.

=== FILE: codec.dfy ===
/** The JASC Paint Shop Pro palette text format: parsing `.pal` source text
    into a palette and writing a palette back as text (src/Palette.js,
    `parse` and `toString`).

    Layout of the text: line 0 is the format tag (`JASC-PAL`), line 1 the
    version, line 2 the declared colour count, line 3 an optional
    `$ALPHA <value>` directive, and every later line a colour entry of
    integers separated by white space, a `#` comment, or blank. */
module Codec {
  import opened Results
  import opened Text
  import opened Numbers
  import opened Palettes

  /** Why a text does not parse. `TooFewLines`: there is no line 3 to test
      for the alpha directive. `MalformedHeader(line)`: the count on line 2,
      or the alpha value on line 3, is not a numeral. `MalformedColorEntry`:
      a token of that entry line is not a numeral. `EmptyPalette`: no entry
      line at all, so there is no first entry to take the channel count
      from. */
  datatype ParseError =
    | TooFewLines
    | MalformedHeader(line: nat)
    | MalformedColorEntry(line: nat)
    | EmptyPalette

  /** Blank lines and `#` comments carry no entry. */
  predicate IsSkipped(line: string) {
    |line| == 0 || line[0] == '#'
  }

  /** Line 3 is an alpha directive when it starts with `$`. */
  predicate HasAlphaDirective(line: string) {
    |line| > 0 && line[0] == '$'
  }

  /** The value of an alpha directive: its second piece when split on single
      spaces (so two spaces in a row leave an empty, unreadable piece). */
  function AlphaValue(line: string): Option<int> {
    var words := SplitOn(line, ' ');
    if |words| < 2 then None else ParseInt(words[1])
  }

  /** The fixed alpha line 3 declares: none without a directive, its value
      with one. */
  function ReadAlpha(line: string): (r: Result<Option<int>, ParseError>)
    ensures r.Failure? <==> HasAlphaDirective(line) && AlphaValue(line).None?
    ensures r.Failure? ==> r.error == MalformedHeader(3)
    ensures r.Success? ==> (r.value.Some? <==> HasAlphaDirective(line))
    ensures r.Success? && r.value.Some? ==> r.value == AlphaValue(line)
  {
    if !HasAlphaDirective(line) then Success(None)
    else
      match AlphaValue(line)
      case Some(a) => Success(Some(a))
      case None => Failure(MalformedHeader(3))
  }

  /** The first line that may hold a colour entry. */
  function EntriesStart(lines: seq<string>): nat
    requires |lines| >= 4
  {
    if HasAlphaDirective(lines[3]) then 4 else 3
  }

  /** Every token read as an integer, in order; absent as soon as one token
      is not a numeral (see `ParseIntsReadsEach`). */
  function ParseInts(tokens: seq<string>): Option<seq<int>>
    decreases |tokens|
  {
    if |tokens| == 0 then Some([])
    else
      var first :- ParseInt(tokens[0]);
      var rest :- ParseInts(tokens[1..]);
      Some([first] + rest)
  }

  /** One entry line: its pieces split on white space runs, each read as an
      integer. */
  function ParseRow(line: string): Option<Color> {
    ParseInts(SplitWs(line))
  }

  /** The tokens read as integers succeed exactly when every token is a
      numeral, and then give one value per token, in order. */
  lemma {:induction false} ParseIntsReadsEach(tokens: seq<string>)
    ensures ParseInts(tokens).Some? <==> forall k :: 0 <= k < |tokens| ==> ParseInt(tokens[k]).Some?
    ensures ParseInts(tokens).Some? ==>
      && |ParseInts(tokens).value| == |tokens|
      && forall k :: 0 <= k < |tokens| ==> ParseInt(tokens[k]) == Some(ParseInts(tokens).value[k])
    decreases |tokens|
  {
    if |tokens| > 0 {
      ParseIntsReadsEach(tokens[1..]);
      assert forall k :: 1 <= k < |tokens| ==> tokens[k] == tokens[1..][k - 1];
    }
  }

  /** The indices, from `from` on, of the lines that carry an entry, in
      line order (see `ContentIndicesExact`). */
  function ContentIndices(lines: seq<string>, from: nat): (r: seq<nat>)
    requires from <= |lines|
    ensures forall k :: 0 <= k < |r| ==> from <= r[k] < |lines|
    decreases |lines| - from
  {
    if from == |lines| then []
    else if IsSkipped(lines[from]) then ContentIndices(lines, from + 1)
    else [from] + ContentIndices(lines, from + 1)
  }

  /** The content indices are exactly the lines from `from` on that are
      neither blank nor comments, in strictly increasing order. */
  lemma {:induction false} ContentIndicesExact(lines: seq<string>, from: nat)
    requires from <= |lines|
    ensures var r := ContentIndices(lines, from);
      && (forall k :: 0 <= k < |r| ==> from <= r[k] < |lines| && !IsSkipped(lines[r[k]]))
      && (forall k, l :: 0 <= k < l < |r| ==> r[k] < r[l])
      && (forall j :: from <= j < |lines| && !IsSkipped(lines[j]) ==> j in r)
    decreases |lines| - from
  {
    if from < |lines| {
      ContentIndicesExact(lines, from + 1);
    }
  }

  /** The loop over the entry lines from `from` on, for a given reader of
      one line: one entry per content line, in line order, failing at the
      first content line the reader rejects. `ParseEntries` instantiates it
      with `ParseRow`. */
  function ReadEntries(read: string -> Option<Color>, lines: seq<string>, from: nat): (r: Result<seq<Color>, ParseError>)
    requires from <= |lines|
    ensures r.Failure? ==> r.error.MalformedColorEntry?
    decreases |lines| - from
  {
    if from == |lines| then Success([])
    else if IsSkipped(lines[from]) then ReadEntries(read, lines, from + 1)
    else
      match read(lines[from])
      case None => Failure(MalformedColorEntry(from))
      case Some(row) =>
        var rest :- ReadEntries(read, lines, from + 1);
        Success([row] + rest)
  }

  /** The entries of the lines from `from` on, each content line read as a
      row. */
  function ParseEntries(lines: seq<string>, from: nat): Result<seq<Color>, ParseError>
    requires from <= |lines|
  {
    ReadEntries(ParseRow, lines, from)
  }

  /** The loop succeeds exactly when the reader accepts every content
      line. */
  lemma {:induction false} EntriesSucceedExactly(read: string -> Option<Color>, lines: seq<string>, from: nat)
    requires from <= |lines|
    ensures ReadEntries(read, lines, from).Success? <==>
      forall j :: from <= j < |lines| && !IsSkipped(lines[j]) ==> read(lines[j]).Some?
    decreases |lines| - from
  {
    if from < |lines| {
      EntriesSucceedExactly(read, lines, from + 1);
    }
  }

  /** The entries the loop produces are the readings of the content lines,
      one per content line and in line order. */
  lemma {:induction false} EntriesAreContentRows(read: string -> Option<Color>, lines: seq<string>, from: nat)
    requires from <= |lines|
    ensures var r := ReadEntries(read, lines, from);
      r.Success? ==>
        var idx := ContentIndices(lines, from);
        && |r.value| == |idx|
        && forall k :: 0 <= k < |idx| ==> read(lines[idx[k]]) == Some(r.value[k])
    decreases |lines| - from
  {
    if from < |lines| {
      EntriesAreContentRows(read, lines, from + 1);
      var r := ReadEntries(read, lines, from);
      if r.Success? && !IsSkipped(lines[from]) {
        var rest := ReadEntries(read, lines, from + 1).value;
        var idx, idx' := ContentIndices(lines, from), ContentIndices(lines, from + 1);
        assert idx == [from] + idx';
        assert r.value == [read(lines[from]).value] + rest;
        assert forall k :: 1 <= k < |idx| ==> idx[k] == idx'[k - 1] && r.value[k] == rest[k - 1];
      }
    }
  }

  /** A failure names the first content line the reader rejects. */
  lemma {:induction false} EntriesFailAtFirstBadRow(read: string -> Option<Color>, lines: seq<string>, from: nat)
    requires from <= |lines|
    ensures var r := ReadEntries(read, lines, from);
      r.Failure? ==>
        && r.error.MalformedColorEntry?
        && from <= r.error.line < |lines|
        && !IsSkipped(lines[r.error.line])
        && read(lines[r.error.line]).None?
        && forall j :: from <= j < r.error.line && !IsSkipped(lines[j]) ==> read(lines[j]).Some?
    decreases |lines| - from
  {
    if from < |lines| {
      EntriesFailAtFirstBadRow(read, lines, from + 1);
    }
  }

  /** The conditions under which a text, split into lines, parses: there is
      a line 3, line 2 is a numeral, an alpha directive carries a numeral,
      every content line reads as a row, and there is at least one. */
  predicate Parsable(lines: seq<string>) {
    && |lines| >= 4
    && ParseInt(lines[2]).Some?
    && (HasAlphaDirective(lines[3]) ==> AlphaValue(lines[3]).Some?)
    && (forall j :: EntriesStart(lines) <= j < |lines| && !IsSkipped(lines[j]) ==> ParseRow(lines[j]).Some?)
    && |ContentIndices(lines, EntriesStart(lines))| > 0
  }

  /** What `parse` does with the lines of a text: without a line 3 it fails;
      the format is line 0 and the version line 1, both verbatim; the
      declared count is line 2 read as an integer, whatever the number of
      entries; the fixed alpha is present exactly when line 3 is a `$`
      directive, and is then its value; the channel count is the length of
      the first colour. The colours and the conditions for success are
      stated by `ParseColors` and `ParseSucceedsExactly`. */
  function ParseLines(lines: seq<string>): (r: Result<Palette, ParseError>)
    ensures r == Failure(TooFewLines) <==> |lines| < 4
    ensures r.Success? ==>
      && GetFormat(r.value) == Some(lines[0])
      && r.value.version == lines[1]
      && ParseInt(lines[2]) == Some(GetNumColors(r.value))
    ensures r.Success? ==>
      && (GetFixedAlpha(r.value).Some? <==> HasAlphaDirective(lines[3]))
      && (HasAlphaDirective(lines[3]) ==> GetFixedAlpha(r.value) == AlphaValue(lines[3]))
    ensures r.Success? ==> |r.value.colors| > 0 && GetNumChannels(r.value) == Some(|r.value.colors[0]|)
  {
    if |lines| < 4 then Failure(TooFewLines)
    else
      var count :- ParseInt(lines[2]).OrFail(MalformedHeader(2));
      var alpha :- ReadAlpha(lines[3]);
      var colors :- ParseEntries(lines, EntriesStart(lines));
      if |colors| == 0 then Failure(EmptyPalette)
      else Success(Palette(Some(lines[0]), lines[1], count, alpha, Some(|colors[0]|), colors))
  }

  /** `parse(text)`: the text split into lines on `\n` or `\r\n`, then
      read. */
  function Parse(text: string): Result<Palette, ParseError> {
    ParseLines(SplitLines(text))
  }

  /** The lines of a text read as a palette exactly when they are
      `Parsable`; otherwise the error names the first condition that fails,
      in the order the parser checks them. */
  lemma ParseSucceedsExactly(lines: seq<string>)
    ensures ParseLines(lines).Success? <==> Parsable(lines)
    ensures ParseLines(lines) == Failure(MalformedHeader(2)) <==> |lines| >= 4 && ParseInt(lines[2]).None?
    ensures ParseLines(lines) == Failure(MalformedHeader(3)) <==>
      && |lines| >= 4 && ParseInt(lines[2]).Some?
      && HasAlphaDirective(lines[3]) && AlphaValue(lines[3]).None?
    ensures ParseLines(lines) == Failure(EmptyPalette) ==>
      |lines| >= 4 && |ContentIndices(lines, EntriesStart(lines))| == 0
  {
    if |lines| >= 4 {
      var start := EntriesStart(lines);
      EntriesSucceedExactly(ParseRow, lines, start);
      EntriesAreContentRows(ParseRow, lines, start);
      EntriesFailAtFirstBadRow(ParseRow, lines, start);
    }
  }

  /** The colours read from the lines are the rows of the content lines from
      the entry start on (line 4 after an alpha directive, line 3 otherwise),
      one per content line, in line order. */
  lemma ParseColors(lines: seq<string>)
    ensures ParseLines(lines).Success? ==>
      var idx := ContentIndices(lines, EntriesStart(lines));
      && |ParseLines(lines).value.colors| == |idx|
      && forall k :: 0 <= k < |idx| ==> ParseRow(lines[idx[k]]) == Some(ParseLines(lines).value.colors[k])
  {
    if |lines| >= 4 {
      EntriesAreContentRows(ParseRow, lines, EntriesStart(lines));
    }
  }

  /** A failure on an entry line names the first content line, from the
      entry start on, that does not read as a row. */
  lemma ParseFailsAtFirstBadRow(lines: seq<string>)
    ensures ParseLines(lines).Failure? && ParseLines(lines).error.MalformedColorEntry? ==>
      var line := ParseLines(lines).error.line;
      && |lines| >= 4
      && EntriesStart(lines) <= line < |lines|
      && !IsSkipped(lines[line])
      && ParseRow(lines[line]).None?
      && forall j :: EntriesStart(lines) <= j < line && !IsSkipped(lines[j]) ==> ParseRow(lines[j]).Some?
  {
    if |lines| >= 4 {
      EntriesFailAtFirstBadRow(ParseRow, lines, EntriesStart(lines));
    }
  }

  /** What `this.format + '\n'` writes: the format, or the text `undefined`
      when the palette has none. */
  function FormatField(format: Option<string>): string {
    match format
    case Some(f) => f
    case None => "undefined"
  }

  /** `if (this.fixedAlpha)`: the directive is written only for a present,
      non-zero alpha. */
  predicate WritesAlpha(alpha: Option<int>) {
    alpha.Some? && alpha.value != 0
  }

  function AlphaDirective(alpha: int): string {
    "$ALPHA " + IntToString(alpha)
  }

  /** The alpha part of the text: the directive and its line feed, or
      nothing. */
  function AlphaText(alpha: Option<int>): string {
    if WritesAlpha(alpha) then AlphaDirective(alpha.value) + "\n" else ""
  }

  /** `color.join(' ')`. */
  function RowText(c: Color): string {
    JoinWith(seq(|c|, k requires 0 <= k < |c| => IntToString(c[k])), " ")
  }

  function RowTexts(colors: seq<Color>): seq<string> {
    seq(|colors|, k requires 0 <= k < |colors| => RowText(colors[k]))
  }

  /** `toString()`: format, version and the current number of entries (not
      the declared count), each ended by a line feed; then the alpha
      directive with its line feed when written; then the entry lines joined
      by line feeds, without a final one. */
  function ToText(p: Palette): string {
    FormatField(p.format) + "\n" + (p.version + "\n" + (IntToString(|p.colors|) + "\n" +
      (AlphaText(p.fixedAlpha) + JoinWith(RowTexts(p.colors), "\n"))))
  }
}

=== FILE: numbers.dfy ===
/** Decimal integers as the codec reads and writes them: `parseInt(x, 10)`
    confined to well-formed numerals (an optional sign and at least one
    decimal digit, nothing else), and JavaScript's rendering of an integral
    number as text. */
module Numbers {
  import opened Results

  predicate IsDigit(c: char) {
    '0' <= c <= '9'
  }

  predicate AllDigits(s: string) {
    forall k :: 0 <= k < |s| ==> IsDigit(s[k])
  }

  /** The character that renders a digit value. */
  function DigitChar(d: nat): char
    requires d < 10
  {
    ('0' as int + d) as char
  }

  /** The value of a digit character. */
  function DigitValue(c: char): nat
    requires IsDigit(c)
  {
    c as int - '0' as int
  }

  /** The value of a string of decimal digits, most significant first; the
      empty string is worth zero. */
  function DigitsValue(s: string): nat
    requires AllDigits(s)
    decreases |s|
  {
    if |s| == 0 then 0
    else 10 * DigitsValue(s[..|s| - 1]) + DigitValue(s[|s| - 1])
  }

  /** The decimal rendering of a natural number: digits only, without a
      leading zero, reading back as the same number. */
  function NatToString(n: nat): (s: string)
    ensures |s| > 0 && AllDigits(s)
    ensures |s| > 1 ==> s[0] != '0'
    ensures DigitsValue(s) == n
    decreases n
  {
    if n < 10 then [DigitChar(n)]
    else
      var prefix := NatToString(n / 10);
      var s := prefix + [DigitChar(n % 10)];
      assert s[..|s| - 1] == prefix;
      s
  }

  /** A well-formed numeral: an optional `+` or `-` followed by at least one
      decimal digit. */
  predicate IsNumeral(s: string) {
    || (|s| > 0 && AllDigits(s))
    || (|s| > 1 && (s[0] == '-' || s[0] == '+') && AllDigits(s[1..]))
  }

  /** `parseInt(s, 10)` on a well-formed numeral; anything else, which
      JavaScript would read as `NaN` or as a prefix, is absent. A leading
      `-` gives a value at most zero, anything else a value at least zero. */
  function ParseInt(s: string): (r: Option<int>)
    ensures r.Some? <==> IsNumeral(s)
    ensures r.Some? && s[0] == '-' ==> r.value <= 0
    ensures r.Some? && s[0] != '-' ==> r.value >= 0
  {
    if |s| > 0 && (s[0] == '-' || s[0] == '+') then
      var digits := s[1..];
      if |digits| > 0 && AllDigits(digits) then
        var magnitude: int := DigitsValue(digits);
        Some(if s[0] == '-' then -magnitude else magnitude)
      else None
    else if |s| > 0 && AllDigits(s) then Some(DigitsValue(s))
    else None
  }

  /** The text JavaScript produces for an integral number: a `-` for a
      negative one, then the decimal digits of its magnitude (read back by
      `IntToStringParses`). */
  function IntToString(n: int): (s: string)
    ensures |s| > 0
    ensures forall k :: 0 <= k < |s| ==> IsDigit(s[k]) || (k == 0 && s[k] == '-')
  {
    if n < 0 then "-" + NatToString(-n) else NatToString(n)
  }

  /** Reading a rendered integer back with `ParseInt` gives the integer
      again. */
  lemma IntToStringParses(n: int)
    ensures ParseInt(IntToString(n)) == Some(n)
  {
    var s := IntToString(n);
    if n < 0 {
      assert s[1..] == NatToString(-n);
    }
  }

  /** A string of digits without a superfluous leading zero: the only way
      `NatToString` writes a natural number. */
  predicate IsCanonicalDigits(s: string) {
    |s| > 0 && AllDigits(s) && (|s| > 1 ==> s[0] != '0')
  }

  /** A numeral the way `IntToString` writes it: canonical digits, preceded
      by `-` when the value is negative (never `-0`, never `+`). */
  predicate IsCanonicalNumeral(s: string) {
    || IsCanonicalDigits(s)
    || (|s| > 1 && s[0] == '-' && IsCanonicalDigits(s[1..]) && s[1..] != "0")
  }

  /** Digits that start with a non-zero digit are worth more than zero. */
  lemma {:induction false} LeadingDigitPositive(s: string)
    requires |s| > 0 && AllDigits(s) && s[0] != '0'
    ensures DigitsValue(s) > 0
    decreases |s|
  {
    if |s| > 1 {
      var prefix := s[..|s| - 1];
      assert prefix[0] == s[0];
      LeadingDigitPositive(prefix);
    }
  }

  /** Canonical digits are the rendering of their own value. */
  lemma {:induction false} NatToStringOfDigits(s: string)
    requires IsCanonicalDigits(s)
    ensures NatToString(DigitsValue(s)) == s
    decreases |s|
  {
    var v := DigitsValue(s);
    if |s| > 1 {
      var prefix := s[..|s| - 1];
      assert prefix[0] == s[0];
      LeadingDigitPositive(prefix);
      NatToStringOfDigits(prefix);
      assert v / 10 == DigitsValue(prefix) && v % 10 == DigitValue(s[|s| - 1]);
      assert s == prefix + [s[|s| - 1]];
    } else {
      assert s == [s[0]];
    }
  }

  /** Every rendered integer is a canonical numeral. */
  lemma IntToStringIsCanonical(n: int)
    ensures IsCanonicalNumeral(IntToString(n))
  {
    var s := IntToString(n);
    if n < 0 {
      assert s[1..] == NatToString(-n);
    }
  }

  /** A canonical numeral read with `ParseInt` and written again with
      `IntToString` is the same text; with `IntToStringParses`, rendering
      is a one-to-one correspondence between integers and canonical
      numerals. */
  lemma CanonicalNumeralRoundTrip(s: string)
    requires IsCanonicalNumeral(s)
    ensures ParseInt(s).Some? && IntToString(ParseInt(s).value) == s
  {
    if IsCanonicalDigits(s) {
      NatToStringOfDigits(s);
    } else {
      var digits := s[1..];
      NatToStringOfDigits(digits);
      LeadingDigitPositive(digits);
      assert s == "-" + digits;
    }
  }

  /** A leading zero adds nothing to the value of a string of digits. */
  lemma {:induction false} DigitsValueLeadingZero(d: string)
    requires AllDigits(d)
    ensures AllDigits("0" + d) && DigitsValue("0" + d) == DigitsValue(d)
    decreases |d|
  {
    var s := "0" + d;
    if |d| > 0 {
      var prefix := d[..|d| - 1];
      DigitsValueLeadingZero(prefix);
      assert s[..|s| - 1] == "0" + prefix;
      assert s[|s| - 1] == d[|d| - 1];
    }
  }

  /** `parseInt` ignores leading zeros: `"007"` reads as `"7"` does. */
  lemma ParseIntLeadingZero(d: string)
    requires |d| > 0 && AllDigits(d)
    ensures ParseInt("0" + d) == ParseInt(d)
  {
    DigitsValueLeadingZero(d);
  }

  /** A leading `+` changes nothing: `"+5"` reads as `"5"` does. */
  lemma ParseIntPlus(d: string)
    requires |d| > 0 && AllDigits(d)
    ensures ParseInt("+" + d) == ParseInt(d)
  {
    assert ("+" + d)[1..] == d;
  }

  /** A leading `-` negates the value of the digits after it; in particular
      `"-0"` reads as 0. */
  lemma ParseIntMinus(d: string)
    requires |d| > 0 && AllDigits(d)
    ensures ParseInt("-" + d).Some? && ParseInt(d).Some?
    ensures ParseInt("-" + d).value == -ParseInt(d).value
  {
    assert ("-" + d)[1..] == d;
  }
}

=== FILE: palette.dfy ===
/** The in-memory palette: a colour table together with the header fields of
    a JASC Paint Shop Pro `.pal` file, its construction from raw colour data,
    and its accessors and mutators (src/Palette.js). */
module Palettes {
  import opened Results

  /** One colour entry: its channel values in order (red, green, blue and
      possibly a fourth channel), not range-checked. */
  type Color = seq<int>

  /** `format` and `fixedAlpha` are absent (JavaScript `undefined`/`null`)
      when not set; `numChannels` is absent for a palette built from raw
      colour data; `numColors` is the declared count, which need not match
      `|colors|`. */
  datatype Palette = Palette(
    format: Option<string>,
    version: string,
    numColors: int,
    fixedAlpha: Option<int>,
    numChannels: Option<nat>,
    colors: seq<Color>)

  /** The version a new palette carries. */
  const DefaultVersion: string := "0100"

  /** `Palette(array)`: a new palette owning exactly the given entries, with
      the default version, the entry count as its declared count, and no
      format, fixed alpha or channel count. */
  function FromColors(entries: seq<Color>): (p: Palette)
    ensures p.colors == entries
    ensures GetNumColors(p) == |entries|
    ensures p.version == DefaultVersion
    ensures GetFormat(p) == None && GetFixedAlpha(p) == None
    ensures GetNumChannels(p) == None
  {
    Palette(None, DefaultVersion, |entries|, None, None, entries)
  }

  /** `getColor(i)`: the entry at `i`, absent (JavaScript `undefined`)
      outside the table. */
  function GetColor(p: Palette, i: int): (r: Option<Color>)
    ensures r.Some? <==> 0 <= i < |p.colors|
    ensures r.Some? ==> r.value == p.colors[i]
  {
    if 0 <= i < |p.colors| then Some(p.colors[i]) else None
  }

  /** `setColor(i, c)` on a slot of the table: afterwards `getColor(i)`
      returns `c`, every other slot reads as before, the table keeps its
      length and the header fields are untouched. */
  function SetColor(p: Palette, i: int, c: Color): (r: Palette)
    requires 0 <= i < |p.colors|
    ensures GetColor(r, i) == Some(c)
    ensures forall j :: j != i ==> GetColor(r, j) == GetColor(p, j)
    ensures |r.colors| == |p.colors|
    ensures GetFormat(r) == GetFormat(p) && r.version == p.version
    ensures GetNumColors(r) == GetNumColors(p) && GetNumChannels(r) == GetNumChannels(p)
    ensures GetFixedAlpha(r) == GetFixedAlpha(p)
  {
    p.(colors := p.colors[i := c])
  }

  function GetFormat(p: Palette): Option<string> {
    p.format
  }

  function GetFixedAlpha(p: Palette): Option<int> {
    p.fixedAlpha
  }

  /** `setFixedAlpha(a)`: afterwards `getFixedAlpha()` returns `a`, and the
      colour table and the other header fields are untouched. */
  function SetFixedAlpha(p: Palette, alpha: Option<int>): (r: Palette)
    ensures GetFixedAlpha(r) == alpha
    ensures r.colors == p.colors
    ensures GetFormat(r) == GetFormat(p) && r.version == p.version
    ensures GetNumColors(r) == GetNumColors(p) && GetNumChannels(r) == GetNumChannels(p)
  {
    p.(fixedAlpha := alpha)
  }

  /** The declared count, not the length of the table. */
  function GetNumColors(p: Palette): int {
    p.numColors
  }

  function GetNumChannels(p: Palette): Option<nat> {
    p.numChannels
  }
}

=== FILE: results.dfy ===
/** The two outcome types of the palette codec. A palette field or a number
    that JavaScript leaves `null` or `undefined` is `None`; a parse step either
    yields its value or the reason it stopped. `IsFailure`, `PropagateFailure`
    and `Extract` are the members Dafny's `:-` operator asks for, so a parse
    can stop at the first step that does not succeed. */
module Results {

  /** A value that may be missing. */
  datatype Option<+T> = None | Some(value: T) {

    predicate IsFailure() {
      None?
    }

    function PropagateFailure<U>(): Option<U>
      requires None?
    {
      None
    }

    function Extract(): T
      requires Some?
    {
      value
    }

    /** A present value succeeds; an absent one fails with `error`. */
    function OrFail<E>(error: E): Result<T, E> {
      match this
      case Some(v) => Success(v)
      case None => Failure(error)
    }
  }

  /** The outcome of a step that can fail with a reason of type `E`. */
  datatype Result<+T, +E> = Success(value: T) | Failure(error: E) {

    predicate IsFailure() {
      Failure?
    }

    function PropagateFailure<U>(): Result<U, E>
      requires Failure?
    {
      Failure(error)
    }

    function Extract(): T
      requires Success?
    {
      value
    }
  }
}

=== FILE: roundtrip.dfy ===
/** What writing a palette and reading it back gives, and what the parser
    ignores: the round trip of `toString` through `parse`, the two places
    where it is lossy (an absent format and a zero fixed alpha), and the
    skipping of blank and comment lines. */
module RoundTrip {
  import opened Results
  import opened Text
  import opened Numbers
  import opened Palettes
  import opened Codec

  /** The conditions under which writing and re-reading keeps a palette: the
      format text and the version each come back as one line (no line feed,
      no final carriage return), there is at least one entry, and no entry
      is empty (an empty entry writes a blank line, which the parser
      skips). */
  predicate Writable(p: Palette) {
    && IsLine(FormatField(p.format))
    && IsLine(p.version)
    && |p.colors| > 0
    && forall k :: 0 <= k < |p.colors| ==> |p.colors[k]| > 0
  }

  /** The lines the written header consists of. */
  function HeaderLines(p: Palette): seq<string> {
    [FormatField(p.format), p.version, IntToString(|p.colors|)] + AlphaLines(p.fixedAlpha)
  }

  /** A rendered number is a single line. */
  lemma NumberNoLineBreak(n: int)
    ensures NoLineBreak(IntToString(n))
  {
    var s := IntToString(n);
    forall i | 0 <= i < |s|
      ensures s[i] != '\n' && s[i] != '\r'
    {
      assert IsDigit(s[i]) || s[i] == '-';
    }
  }

  /** A written entry is one line; for a non-empty entry it starts with the
      first value's rendering. */
  lemma RowTextShape(c: Color)
    ensures NoLineBreak(RowText(c))
    ensures |c| > 0 ==> |RowText(c)| > 0 && RowText(c)[0] == IntToString(c[0])[0]
  {
    var parts := seq(|c|, k requires 0 <= k < |c| => IntToString(c[k]));
    forall k | 0 <= k < |parts|
      ensures NoLineBreak(parts[k])
    {
      NumberNoLineBreak(c[k]);
    }
    JoinWithNoLineBreak(parts, " ");
    if |c| > 0 {
      JoinWithHead(parts, " ");
    }
  }

  /** A written non-empty entry reads back as the same entry. */
  lemma {:induction false} RowTextParses(c: Color)
    requires |c| > 0
    ensures ParseRow(RowText(c)) == Some(c)
  {
    var parts := seq(|c|, k requires 0 <= k < |c| => IntToString(c[k]));
    forall k | 0 <= k < |parts|
      ensures |parts[k]| > 0 && NoSpace(parts[k])
      ensures ParseInt(parts[k]) == Some(c[k])
    {
      IntToStringParses(c[k]);
      var s := parts[k];
      forall i | 0 <= i < |s|
        ensures !IsSpace(s[i])
      {
        assert IsDigit(s[i]) || s[i] == '-';
      }
    }
    SplitWsJoin(parts);
    ParseIntsReadsEach(parts);
    var r := ParseInts(parts);
    assert r.Some?;
    assert r.value == c;
  }

  /** The entry lines joined by line feeds split back into the entry lines;
      no entries give one empty line. */
  lemma BodyLines(colors: seq<Color>)
    ensures SplitLines(JoinWith(RowTexts(colors), "\n")) ==
      (if |colors| == 0 then [""] else RowTexts(colors))
  {
    var rows := RowTexts(colors);
    if |colors| > 0 {
      forall k | 0 <= k < |rows|
        ensures NoLineBreak(rows[k])
      {
        RowTextShape(colors[k]);
      }
      SplitLinesJoinLf(rows);
    }
  }

  /** The alpha directive is a single line that splits off before the
      rest. */
  lemma AlphaDirectiveLine(a: int, rest: string)
    ensures SplitLines(AlphaDirective(a) + "\n" + rest) == [AlphaDirective(a)] + SplitLines(rest)
  {
    var line := AlphaDirective(a);
    var n := IntToString(a);
    assert line == "$ALPHA " + n;
    forall i | 0 <= i < |line|
      ensures line[i] != '\n' && line[i] != '\r'
    {
      if i >= 7 {
        assert line[i] == n[i - 7];
        assert IsDigit(n[i - 7]) || n[i - 7] == '-';
      }
    }
    SplitLinesAfterLine(line, rest);
  }

  /** A header field that is a line splits off before the rest. */
  lemma FieldLine(f: string, rest: string)
    requires IsLine(f)
    ensures SplitLines(f + "\n" + rest) == [f] + SplitLines(rest)
  {
    SplitLinesAfterLine(f, rest);
  }

  /** The lines the written alpha part consists of. */
  function AlphaLines(alpha: Option<int>): seq<string> {
    if WritesAlpha(alpha) then [AlphaDirective(alpha.value)] else []
  }

  /** The alpha part followed by the entry lines splits into the directive
      line, when written, and the entry lines. */
  lemma TailLines(alpha: Option<int>, colors: seq<Color>)
    ensures SplitLines(AlphaText(alpha) + JoinWith(RowTexts(colors), "\n")) ==
      AlphaLines(alpha) + (if |colors| == 0 then [""] else RowTexts(colors))
  {
    var body := JoinWith(RowTexts(colors), "\n");
    BodyLines(colors);
    if WritesAlpha(alpha) {
      AlphaDirectiveLine(alpha.value, body);
    } else {
      assert AlphaText(alpha) + body == body;
    }
  }

  /** Three single lines, each ended by a line feed, split off before the
      rest. */
  lemma ThreeLines(f: string, v: string, c: string, rest: string)
    requires IsLine(f) && IsLine(v) && IsLine(c)
    ensures SplitLines(f + "\n" + (v + "\n" + (c + "\n" + rest))) == [f, v, c] + SplitLines(rest)
  {
    FieldLine(c, rest);
    FieldLine(v, c + "\n" + rest);
    FieldLine(f, v + "\n" + (c + "\n" + rest));
  }

  /** The written text splits into the header lines followed by one line per
      entry; with no entries, the text ends with an empty line. The count line
      is the number of entries, not the declared count. */
  lemma {:induction false} ToTextLines(p: Palette)
    requires IsLine(FormatField(p.format)) && IsLine(p.version)
    ensures SplitLines(ToText(p)) ==
      HeaderLines(p) + (if |p.colors| == 0 then [""] else RowTexts(p.colors))
  {
    var tail := AlphaText(p.fixedAlpha) + JoinWith(RowTexts(p.colors), "\n");
    var body := if |p.colors| == 0 then [""] else RowTexts(p.colors);
    TailLines(p.fixedAlpha, p.colors);
    var count := IntToString(|p.colors|);
    NumberNoLineBreak(|p.colors|);
    assert IsLine(count);
    var f := FormatField(p.format);
    ThreeLines(f, p.version, count, tail);
    ConcatAssoc([f, p.version, count], AlphaLines(p.fixedAlpha), body);
  }

  /** Regrouping a concatenation of three sequences. */
  lemma ConcatAssoc<T>(a: seq<T>, b: seq<T>, c: seq<T>)
    ensures a + (b + c) == (a + b) + c
  {
  }

  /** The text of a writable palette splits into its header lines and one
      line per entry, the first two being the format text and the version. */
  lemma WrittenLines(p: Palette)
    requires Writable(p)
    ensures SplitLines(ToText(p)) == HeaderLines(p) + RowTexts(p.colors)
    ensures SplitLines(ToText(p))[0] == FormatField(p.format)
    ensures SplitLines(ToText(p))[1] == p.version
  {
    ToTextLines(p);
    var h := HeaderLines(p);
    HeaderFields(p);
    var rows := RowTexts(p.colors);
    assert (h + rows)[0] == h[0] && (h + rows)[1] == h[1];
  }

  /** The first two header lines are the format text and the version. */
  lemma HeaderFields(p: Palette)
    ensures |HeaderLines(p)| >= 3
    ensures HeaderLines(p)[0] == FormatField(p.format)
    ensures HeaderLines(p)[1] == p.version
  {
  }

  /** Lines that are exactly the written entries read back as those
      entries. */
  lemma {:induction false} EntriesOfRows(lines: seq<string>, from: nat, colors: seq<Color>)
    requires from + |colors| == |lines|
    requires lines[from..] == RowTexts(colors)
    requires forall k :: 0 <= k < |colors| ==> |colors[k]| > 0
    ensures ParseEntries(lines, from) == Success(colors)
    decreases |colors|
  {
    if |colors| > 0 {
      assert lines[from] == RowText(colors[0]);
      RowTextShape(colors[0]);
      RowTextParses(colors[0]);
      assert !IsSkipped(lines[from]) by {
        assert lines[from][0] == IntToString(colors[0][0])[0];
      }
      assert lines[from + 1..] == lines[from..][1..];
      assert RowTexts(colors[1..]) == RowTexts(colors)[1..];
      EntriesOfRows(lines, from + 1, colors[1..]);
      assert colors == [colors[0]] + colors[1..];
    }
  }

  /** The alpha directive reads back as its value. */
  lemma AlphaDirectiveReads(a: int)
    ensures HasAlphaDirective(AlphaDirective(a))
    ensures ReadAlpha(AlphaDirective(a)) == Success(Some(a))
  {
    var n := IntToString(a);
    IntToStringParses(a);
    assert AlphaDirective(a) == "$ALPHA" + [' '] + n;
    SplitOnAfterPiece("$ALPHA", ' ', n);
    assert ' ' !in n by {
      forall i | 0 <= i < |n|
        ensures n[i] != ' '
      {
        assert IsDigit(n[i]) || n[i] == '-';
      }
    }
    SplitOnSingle(n, ' ');
  }

  /** A written non-empty entry is not an alpha directive. */
  lemma RowTextIsNotDirective(c: Color)
    requires |c| > 0
    ensures !HasAlphaDirective(RowText(c))
  {
    RowTextShape(c);
    var n := IntToString(c[0]);
    assert IsDigit(n[0]) || n[0] == '-';
  }

  /** Reading the lines of a written palette: a line 3 exists, the count line
      reads as the number of entries, line 3 declares the written alpha, and
      the entry lines read back as the colours. */
  lemma {:induction false} ReadWrittenLines(p: Palette, lines: seq<string>)
    requires Writable(p)
    requires lines == HeaderLines(p) + RowTexts(p.colors)
    ensures |lines| >= 4
    ensures ParseInt(lines[2]) == Some(|p.colors|)
    ensures ReadAlpha(lines[3]) == Success(if WritesAlpha(p.fixedAlpha) then p.fixedAlpha else None)
    ensures ParseEntries(lines, EntriesStart(lines)) == Success(p.colors)
  {
    var rows := RowTexts(p.colors);
    assert lines[2] == IntToString(|p.colors|);
    IntToStringParses(|p.colors|);
    var start := |HeaderLines(p)|;
    assert lines[start..] == rows;
    EntriesOfRows(lines, start, p.colors);
    if WritesAlpha(p.fixedAlpha) {
      assert lines[3] == AlphaDirective(p.fixedAlpha.value);
      AlphaDirectiveReads(p.fixedAlpha.value);
    } else {
      assert lines[3] == RowText(p.colors[0]);
      RowTextIsNotDirective(p.colors[0]);
    }
  }

  /** Lines of which line 3 exists, whose count, alpha and entries read, and
      which hold at least one entry, read as the palette made of them. */
  lemma ParseOfReadableLines(lines: seq<string>, count: int, alpha: Option<int>, colors: seq<Color>)
    requires |lines| >= 4
    requires ParseInt(lines[2]) == Some(count)
    requires ReadAlpha(lines[3]) == Success(alpha)
    requires ParseEntries(lines, EntriesStart(lines)) == Success(colors)
    requires |colors| > 0
    ensures ParseLines(lines) == Success(Palette(Some(lines[0]), lines[1], count, alpha, Some(|colors[0]|), colors))
  {
  }

  /** Writing a palette and parsing the text gives back its version and its
      colours; the format becomes the text written for it (`undefined` when
      absent); the fixed alpha survives unless it is zero, which is not
      written and so comes back absent; the declared count becomes the
      number of entries and the channel count the first entry's length. */
  lemma {:induction false} ParseToText(p: Palette)
    requires Writable(p)
    ensures Parse(ToText(p)) == Success(Palette(
      Some(FormatField(p.format)),
      p.version,
      |p.colors|,
      if WritesAlpha(p.fixedAlpha) then p.fixedAlpha else None,
      Some(|p.colors[0]|),
      p.colors))
  {
    var text := ToText(p);
    var lines := SplitLines(text);
    WrittenLines(p);
    ReadWrittenLines(p, lines);
    ParseOfReadableLines(lines, |p.colors|, if WritesAlpha(p.fixedAlpha) then p.fixedAlpha else None, p.colors);
  }

  /** A palette with a format, and a fixed alpha that is absent or non-zero,
      comes back from writing and re-reading as itself, except that the
      declared count becomes the number of entries and the channel count the
      first entry's length. */
  lemma PaletteSurvivesRoundTrip(p: Palette)
    requires Writable(p)
    requires p.format.Some?
    requires p.fixedAlpha != Some(0)
    ensures Parse(ToText(p)) ==
      Success(p.(numColors := |p.colors|, numChannels := Some(|p.colors[0]|)))
  {
    ParseToText(p);
  }

  /** A row the parser accepts holds at least one value: a white space
      split has at least one piece, and each piece gives one value. */
  lemma AcceptedRowNonEmpty(line: string)
    requires ParseRow(line).Some?
    ensures |ParseRow(line).value| > 0
  {
    ParseIntsReadsEach(SplitWs(line));
  }

  /** A palette read from lines whose format and version lines stay lines
      when written, and whose fixed alpha is not zero, comes back from
      writing and re-reading as itself, except that the declared count
      becomes the number of entries. */
  lemma ParsedPaletteSurvivesRoundTrip(lines: seq<string>, q: Palette)
    requires ParseLines(lines) == Success(q)
    requires IsLine(lines[0]) && IsLine(lines[1])
    requires q.fixedAlpha != Some(0)
    ensures Parse(ToText(q)) == Success(q.(numColors := |q.colors|))
  {
    assert |lines| >= 4;
    ParseColors(lines);
    var idx := ContentIndices(lines, EntriesStart(lines));
    ContentIndicesExact(lines, EntriesStart(lines));
    forall k | 0 <= k < |q.colors|
      ensures |q.colors[k]| > 0
    {
      AcceptedRowNonEmpty(lines[idx[k]]);
    }
    assert Writable(q);
    PaletteSurvivesRoundTrip(q);
  }

  /** A fixed alpha of zero is lost: the written text has no directive, so
      the palette read back has no fixed alpha; the rest comes back as for
      any other palette. */
  lemma ZeroAlphaIsDropped(p: Palette)
    requires Writable(p)
    requires GetFixedAlpha(p) == Some(0)
    ensures Parse(ToText(p)) == Success(p.(format := Some(FormatField(p.format)), fixedAlpha := None,
      numColors := |p.colors|, numChannels := Some(|p.colors[0]|)))
  {
    ParseToText(p);
  }

  /** A palette built from raw colours writes its absent format as the text
      `undefined`, which reads back as a present format of that text; its
      version, colours and lack of fixed alpha come back unchanged. */
  lemma FromColorsRoundTrip(entries: seq<Color>)
    requires |entries| > 0
    requires forall k :: 0 <= k < |entries| ==> |entries[k]| > 0
    ensures Parse(ToText(FromColors(entries))) ==
      Success(Palette(Some("undefined"), DefaultVersion, |entries|, None, Some(|entries[0]|), entries))
  {
    var p := FromColors(entries);
    assert p == Palette(None, DefaultVersion, |entries|, None, None, entries);
    assert FormatField(p.format) == "undefined" && !WritesAlpha(p.fixedAlpha);
    assert Writable(p) by {
      assert IsLine("undefined");
      assert IsLine(DefaultVersion);
    }
    ParseToText(p);
  }

  /** Writing is idempotent through parsing: the text of a palette re-read
      from its own text is that text again. */
  lemma ToTextIsFixpoint(p: Palette)
    requires Writable(p)
    ensures var r := Parse(ToText(p)); r.Success? && ToText(r.value) == ToText(p)
  {
    ParseToText(p);
  }

  /** The entry loop depends only on the lines from the start position on,
      apart from the line numbers in its errors. */
  lemma {:induction false} EntriesDependOnSuffix(
    read: string -> Option<Color>, lines1: seq<string>, from1: nat, lines2: seq<string>, from2: nat)
    requires from1 <= |lines1| && from2 <= |lines2|
    requires lines1[from1..] == lines2[from2..]
    ensures ReadEntries(read, lines1, from1).Success? == ReadEntries(read, lines2, from2).Success?
    ensures ReadEntries(read, lines1, from1).Success? ==>
      ReadEntries(read, lines1, from1).value == ReadEntries(read, lines2, from2).value
    decreases |lines1| - from1
  {
    if from1 < |lines1| {
      assert lines1[from1] == lines1[from1..][0] == lines2[from2];
      assert lines1[from1 + 1..] == lines1[from1..][1..];
      assert lines2[from2 + 1..] == lines2[from2..][1..];
      EntriesDependOnSuffix(read, lines1, from1 + 1, lines2, from2 + 1);
    }
  }

  /** Inserting a blank or comment line among the entry lines changes
      neither whether the loop succeeds nor the entries it reads. */
  lemma {:induction false} SkippedLineIgnoredByEntries(
    read: string -> Option<Color>, lines: seq<string>, from: nat, at: nat, extra: string)
    requires from <= at <= |lines|
    requires IsSkipped(extra)
    ensures var lines' := lines[..at] + [extra] + lines[at..];
      && ReadEntries(read, lines', from).Success? == ReadEntries(read, lines, from).Success?
      && (ReadEntries(read, lines, from).Success? ==>
            ReadEntries(read, lines', from).value == ReadEntries(read, lines, from).value)
    decreases at - from
  {
    var lines' := lines[..at] + [extra] + lines[at..];
    if from == at {
      assert lines'[at] == extra;
      assert lines'[at + 1..] == lines[at..];
      EntriesDependOnSuffix(read, lines', at + 1, lines, at);
    } else {
      assert lines'[from] == lines[from];
      SkippedLineIgnoredByEntries(read, lines, from + 1, at, extra);
    }
  }

  /** Lines with a blank or comment line inserted at or after the first
      entry line read exactly as the lines without it: the same success, and
      the same palette. */
  lemma SkippedLineIgnoredByParse(lines: seq<string>, at: nat, extra: string)
    requires |lines| >= 4 && EntriesStart(lines) <= at <= |lines|
    requires IsSkipped(extra)
    ensures var lines' := lines[..at] + [extra] + lines[at..];
      && (ParseLines(lines').Success? <==> ParseLines(lines).Success?)
      && (ParseLines(lines).Success? ==> ParseLines(lines') == ParseLines(lines))
  {
    var lines' := lines[..at] + [extra] + lines[at..];
    var start := EntriesStart(lines);
    assert lines'[0] == lines[0] && lines'[1] == lines[1] && lines'[2] == lines[2];
    assert lines'[3] == (if at == 3 then extra else lines[3]);
    assert EntriesStart(lines') == start;
    assert ReadAlpha(lines'[3]) == ReadAlpha(lines[3]);
    SkippedLineIgnoredByEntries(ParseRow, lines, start, at, extra);
  }
}

=== FILE: text.dfy ===
/** The string splitting and joining the palette codec relies on, with the
    exact semantics of JavaScript's `String.prototype.split` for the three
    separators the codec uses (`/\r?\n/`, `/\s+/` and `' '`) and of
    `Array.prototype.join`. */
module Text {

  /** JavaScript's `\s` class: the white space and line terminator characters
      of ECMAScript (tab, line feed, vertical tab, form feed, carriage return,
      space, no-break space, the Unicode space separators, line and paragraph
      separators, and the byte order mark). */
  predicate IsSpace(c: char) {
    || c == '\t' || c == '\n' || c == '\U{B}' || c == '\U{C}' || c == '\r'
    || c == ' ' || c == '\U{A0}' || c == '\U{1680}'
    || ('\U{2000}' <= c <= '\U{200A}')
    || c == '\U{2028}' || c == '\U{2029}' || c == '\U{202F}'
    || c == '\U{205F}' || c == '\U{3000}' || c == '\U{FEFF}'
  }

  /** `s` holds neither a line feed nor a carriage return. */
  predicate NoLineBreak(s: string) {
    forall k :: 0 <= k < |s| ==> s[k] != '\n' && s[k] != '\r'
  }

  /** `s` comes back as a line of its own when a line feed follows it: it
      holds no line feed, and does not end with a carriage return (which
      would join that line feed as a `\r\n` separator). */
  predicate IsLine(s: string) {
    '\n' !in s && (|s| == 0 || s[|s| - 1] != '\r')
  }

  /** `s` holds no character of the `\s` class. */
  predicate NoSpace(s: string) {
    forall k :: 0 <= k < |s| ==> !IsSpace(s[k])
  }

  /** `parts.join(sep)`: the parts with `sep` between neighbours; the empty
      list joins to the empty string. */
  function JoinWith(parts: seq<string>, sep: string): string {
    if |parts| == 0 then ""
    else if |parts| == 1 then parts[0]
    else parts[0] + sep + JoinWith(parts[1..], sep)
  }

  /** `s.split(/\r?\n/)`. The regular expression matches at the leftmost
      position where it can, so a separator is a line feed together with one
      carriage return directly before it, and a carriage return anywhere else
      stays in its line. The result always has one more element than `s` has
      line feeds (see `SplitLinesCount`), and no element holds a line feed. */
  function SplitLines(s: string): (r: seq<string>)
    ensures |r| >= 1
    ensures forall k :: 0 <= k < |r| ==> '\n' !in r[k]
    decreases |s|
  {
    if |s| == 0 then [""]
    else if s[0] == '\n' then
      assert s == [s[0]] + s[1..];
      [""] + SplitLines(s[1..])
    else if 2 <= |s| && s[0] == '\r' && s[1] == '\n' then
      assert s == [s[0]] + [s[1]] + s[2..];
      [""] + SplitLines(s[2..])
    else
      assert s == [s[0]] + s[1..];
      var rest := SplitLines(s[1..]);
      [[s[0]] + rest[0]] + rest[1..]
  }

  /** Splitting on `\r?\n` gives one more line than the text has line
      feeds. */
  lemma {:induction false} SplitLinesCount(s: string)
    ensures |SplitLines(s)| == multiset(s)['\n'] + 1
    decreases |s|
  {
    if |s| > 0 {
      if 2 <= |s| && s[0] == '\r' && s[1] == '\n' {
        SplitLinesCount(s[2..]);
        assert s == [s[0]] + [s[1]] + s[2..];
      } else {
        SplitLinesCount(s[1..]);
        assert s == [s[0]] + s[1..];
      }
    }
  }

  /** `s.split(c)` for a single-character separator: the pieces between the
      occurrences of `c` (see `SplitOnJoin`). */
  function SplitOn(s: string, c: char): (r: seq<string>)
    ensures |r| >= 1
    decreases |s|
  {
    if |s| == 0 then [""]
    else if s[0] == c then [""] + SplitOn(s[1..], c)
    else
      var rest := SplitOn(s[1..], c);
      [[s[0]] + rest[0]] + rest[1..]
  }

  /** No piece of a split on `c` holds `c`. */
  lemma {:induction false} SplitOnNoSeparator(s: string, c: char)
    ensures forall k :: 0 <= k < |SplitOn(s, c)| ==> c !in SplitOn(s, c)[k]
    decreases |s|
  {
    if |s| > 0 {
      SplitOnNoSeparator(s[1..], c);
      var rest := SplitOn(s[1..], c);
      var r := SplitOn(s, c);
      if s[0] == c {
        assert r[1..] == rest;
      } else {
        assert r == [[s[0]] + rest[0]] + rest[1..];
        assert forall k :: 1 <= k < |r| ==> r[k] == rest[k];
      }
    }
  }

  /** Joining the pieces of a split on `c` back with `c` gives the text. */
  lemma {:induction false} SplitOnJoin(s: string, c: char)
    ensures JoinWith(SplitOn(s, c), [c]) == s
    decreases |s|
  {
    if |s| > 0 {
      SplitOnJoin(s[1..], c);
      var rest := SplitOn(s[1..], c);
      if s[0] == c {
        assert SplitOn(s, c) == [""] + rest;
      } else {
        assert SplitOn(s, c) == [[s[0]] + rest[0]] + rest[1..];
        JoinWithConsHead(s[0], rest, [c]);
      }
      assert s == [s[0]] + s[1..];
    }
  }

  /** Putting a character in front of the first part puts it in front of
      the join. */
  lemma JoinWithConsHead(x: char, parts: seq<string>, sep: string)
    requires |parts| >= 1
    ensures JoinWith([[x] + parts[0]] + parts[1..], sep) == [x] + JoinWith(parts, sep)
  {
    var r := [[x] + parts[0]] + parts[1..];
    if |parts| > 1 {
      assert r[1..] == parts[1..];
    }
  }

  /** The longest suffix of `s` that does not start with white space. */
  function DropSpaces(s: string): (r: string)
    ensures |r| <= |s| && r == s[|s| - |r|..]
    ensures |r| == 0 || !IsSpace(r[0])
    ensures forall k :: 0 <= k < |s| - |r| ==> IsSpace(s[k])
    decreases |s|
  {
    if |s| > 0 && IsSpace(s[0]) then DropSpaces(s[1..]) else s
  }

  /** `s.split(/\s+/)`: a run of white space, taken whole, separates two
      pieces (see `SplitWsPieces`). */
  function SplitWs(s: string): (r: seq<string>)
    ensures |r| >= 1
    decreases |s|
  {
    if |s| == 0 then [""]
    else if IsSpace(s[0]) then [""] + SplitWs(DropSpaces(s))
    else
      var rest := SplitWs(s[1..]);
      [[s[0]] + rest[0]] + rest[1..]
  }

  /** No piece of a white space split holds white space, and only the first
      and the last piece can be empty (when `s` starts or ends with white
      space). */
  lemma {:induction false} SplitWsPieces(s: string)
    ensures forall k :: 0 <= k < |SplitWs(s)| ==> NoSpace(SplitWs(s)[k])
    ensures forall k :: 0 < k < |SplitWs(s)| - 1 ==> |SplitWs(s)[k]| > 0
    ensures |s| > 0 && !IsSpace(s[0]) ==> |SplitWs(s)[0]| > 0
    decreases |s|
  {
    if |s| > 0 {
      if IsSpace(s[0]) {
        var t := DropSpaces(s);
        SplitWsPieces(t);
      } else {
        SplitWsPieces(s[1..]);
        var rest := SplitWs(s[1..]);
        assert NoSpace([s[0]] + rest[0]) by {
          assert forall i :: 1 <= i < |rest[0]| + 1 ==> ([s[0]] + rest[0])[i] == rest[0][i - 1];
        }
      }
    }
  }

  /** A string without line feeds is a single line. */
  lemma {:induction false} SplitLinesSingle(a: string)
    requires '\n' !in a
    ensures SplitLines(a) == [a]
    decreases |a|
  {
    if |a| > 0 {
      assert '\n' !in a[1..] by {
        assert forall k :: 0 <= k < |a[1..]| ==> a[1..][k] == a[k + 1];
      }
      SplitLinesSingle(a[1..]);
      assert a[0] != '\n';
      assert |a| >= 2 ==> a[1] != '\n';
      assert a == [a[0]] + a[1..];
    }
  }

  /** A first character that does not start a separator begins the first
      line. */
  lemma SplitLinesCons(s: string)
    requires |s| > 0 && s[0] != '\n'
    requires !(2 <= |s| && s[0] == '\r' && s[1] == '\n')
    ensures SplitLines(s) == [[s[0]] + SplitLines(s[1..])[0]] + SplitLines(s[1..])[1..]
  {
  }

  /** Dropping the first character of a string without line feeds leaves
      one without line feeds. */
  lemma NoLineFeedTail(a: string)
    requires |a| > 0 && '\n' !in a
    ensures '\n' !in a[1..] && a[0] != '\n'
  {
    assert forall k :: 0 <= k < |a[1..]| ==> a[1..][k] == a[k + 1];
  }

  /** A line followed by a line feed splits off as the first line, provided
      it holds no line feed and does not end with a carriage return (which
      would otherwise join the separator). */
  lemma {:induction false} SplitLinesAfterLine(a: string, b: string)
    requires '\n' !in a
    requires |a| == 0 || a[|a| - 1] != '\r'
    ensures SplitLines(a + "\n" + b) == [a] + SplitLines(b)
    decreases |a|
  {
    var s := a + "\n" + b;
    if |a| == 0 {
      assert s[1..] == b;
    } else {
      var t := a[1..] + "\n" + b;
      assert s == [a[0]] + t;
      NoLineFeedTail(a);
      SplitLinesAfterLine(a[1..], b);
      assert !(s[0] == '\r' && s[1] == '\n') by {
        if |a| > 1 {
          assert s[1] == a[1];
        }
      }
      SplitLinesCons(s);
      assert s[1..] == t;
      assert a == [a[0]] + a[1..];
    }
  }

  /** A line followed by a carriage return and line feed splits off as the
      first line, whatever its last character. */
  lemma {:induction false} SplitLinesAfterCrLf(a: string, b: string)
    requires '\n' !in a
    ensures SplitLines(a + "\r\n" + b) == [a] + SplitLines(b)
    decreases |a|
  {
    var s := a + "\r\n" + b;
    if |a| == 0 {
      assert s[2..] == b;
    } else {
      var t := a[1..] + "\r\n" + b;
      assert s == [a[0]] + t;
      NoLineFeedTail(a);
      SplitLinesAfterCrLf(a[1..], b);
      assert s[1] == t[0] != '\n';
      SplitLinesCons(s);
      assert s[1..] == t;
      assert a == [a[0]] + a[1..];
    }
  }

  /** Joining lines with line feeds and splitting again gives the lines back,
      when no line holds a line break. */
  lemma {:induction false} SplitLinesJoinLf(lines: seq<string>)
    requires |lines| >= 1
    requires forall k :: 0 <= k < |lines| ==> NoLineBreak(lines[k])
    ensures SplitLines(JoinWith(lines, "\n")) == lines
    decreases |lines|
  {
    if |lines| == 1 {
      SplitLinesSingle(lines[0]);
    } else {
      var a := lines[0];
      assert '\n' !in a && (|a| == 0 || a[|a| - 1] != '\r');
      SplitLinesAfterLine(a, JoinWith(lines[1..], "\n"));
      SplitLinesJoinLf(lines[1..]);
      assert lines == [a] + lines[1..];
    }
  }

  /** Joining lines with carriage return and line feed pairs and splitting
      again gives the lines back, when no line holds a line feed. */
  lemma {:induction false} SplitLinesJoinCrLf(lines: seq<string>)
    requires |lines| >= 1
    requires forall k :: 0 <= k < |lines| ==> '\n' !in lines[k]
    ensures SplitLines(JoinWith(lines, "\r\n")) == lines
    decreases |lines|
  {
    if |lines| == 1 {
      SplitLinesSingle(lines[0]);
    } else {
      SplitLinesAfterCrLf(lines[0], JoinWith(lines[1..], "\r\n"));
      SplitLinesJoinCrLf(lines[1..]);
      assert lines == [lines[0]] + lines[1..];
    }
  }

  /** A string without the separator is a single piece. */
  lemma {:induction false} SplitOnSingle(a: string, c: char)
    requires c !in a
    ensures SplitOn(a, c) == [a]
    decreases |a|
  {
    if |a| > 0 {
      assert c !in a[1..] by {
        assert forall k :: 0 <= k < |a[1..]| ==> a[1..][k] == a[k + 1];
      }
      SplitOnSingle(a[1..], c);
      assert a == [a[0]] + a[1..];
    }
  }

  /** A piece without the separator, followed by the separator, splits off
      as the first piece. */
  lemma {:induction false} SplitOnAfterPiece(a: string, c: char, b: string)
    requires c !in a
    ensures SplitOn(a + [c] + b, c) == [a] + SplitOn(b, c)
    decreases |a|
  {
    var s := a + [c] + b;
    if |a| == 0 {
      assert s[1..] == b;
    } else {
      assert s[1..] == a[1..] + [c] + b;
      assert c !in a[1..] by {
        assert forall k :: 0 <= k < |a[1..]| ==> a[1..][k] == a[k + 1];
      }
      SplitOnAfterPiece(a[1..], c, b);
      assert a == [a[0]] + a[1..];
    }
  }

  /** A string without white space is a single piece. */
  lemma {:induction false} SplitWsSingle(a: string)
    requires NoSpace(a)
    ensures SplitWs(a) == [a]
    decreases |a|
  {
    if |a| > 0 {
      SplitWsSingle(a[1..]);
      assert a == [a[0]] + a[1..];
    }
  }

  /** A piece without white space, followed by one space and a string that
      does not start with white space, splits off as the first piece. */
  lemma {:induction false} SplitWsAfterToken(a: string, b: string)
    requires NoSpace(a)
    requires |b| > 0 && !IsSpace(b[0])
    ensures SplitWs(a + " " + b) == [a] + SplitWs(b)
    decreases |a|
  {
    var s := a + " " + b;
    if |a| == 0 {
      assert s == [' '] + b;
      SplitWsSpace(b);
    } else {
      var t := a[1..] + " " + b;
      assert s == [a[0]] + t;
      assert NoSpace(a[1..]) by {
        assert forall k :: 0 <= k < |a[1..]| ==> a[1..][k] == a[k + 1];
      }
      SplitWsAfterToken(a[1..], b);
      SplitWsCons(a[0], t);
      assert a == [a[0]] + a[1..];
    }
  }

  /** A character that is not white space begins the first piece. */
  lemma SplitWsCons(c: char, t: string)
    requires !IsSpace(c)
    ensures SplitWs([c] + t) == [[c] + SplitWs(t)[0]] + SplitWs(t)[1..]
  {
    assert ([c] + t)[1..] == t;
  }

  /** One space before a string that does not start with white space ends
      an empty first piece. */
  lemma SplitWsSpace(b: string)
    requires |b| > 0 && !IsSpace(b[0])
    ensures SplitWs([' '] + b) == [""] + SplitWs(b)
  {
    assert ([' '] + b)[1..] == b;
    assert DropSpaces([' '] + b) == DropSpaces(b) == b;
  }

  /** `w` is a non-empty run of white space. */
  predicate IsSpaceRun(w: string) {
    |w| > 0 && forall k :: 0 <= k < |w| ==> IsSpace(w[k])
  }

  /** Dropping the white space before a string that does not start with
      white space leaves that string. */
  lemma {:induction false} DropSpacesRun(w: string, b: string)
    requires forall k :: 0 <= k < |w| ==> IsSpace(w[k])
    requires |b| == 0 || !IsSpace(b[0])
    ensures DropSpaces(w + b) == b
    decreases |w|
  {
    if |w| > 0 {
      assert (w + b)[1..] == w[1..] + b;
      DropSpacesRun(w[1..], b);
    } else {
      assert w + b == b;
    }
  }

  /** A leading run of white space, however long and whichever `\s`
      characters it holds, ends an empty first piece. */
  lemma SplitWsLeadingRun(w: string, b: string)
    requires IsSpaceRun(w)
    requires |b| == 0 || !IsSpace(b[0])
    ensures SplitWs(w + b) == [""] + SplitWs(b)
  {
    assert (w + b)[0] == w[0];
    DropSpacesRun(w, b);
  }

  /** A piece without white space, followed by a run of white space and a
      string that does not start with white space, splits off as the first
      piece: the whole run is one separator. */
  lemma {:induction false} SplitWsAfterRun(a: string, w: string, b: string)
    requires NoSpace(a)
    requires IsSpaceRun(w)
    requires |b| == 0 || !IsSpace(b[0])
    ensures SplitWs(a + w + b) == [a] + SplitWs(b)
    decreases |a|
  {
    var s := a + w + b;
    if |a| == 0 {
      assert s == w + b;
      SplitWsLeadingRun(w, b);
    } else {
      var t := a[1..] + w + b;
      assert s == [a[0]] + t;
      assert NoSpace(a[1..]) by {
        assert forall k :: 0 <= k < |a[1..]| ==> a[1..][k] == a[k + 1];
      }
      SplitWsAfterRun(a[1..], w, b);
      SplitWsCons(a[0], t);
      assert a == [a[0]] + a[1..];
    }
  }

  /** Joining non-empty tokens without white space by single spaces and
      splitting on white space runs gives the tokens back. */
  lemma {:induction false} SplitWsJoin(tokens: seq<string>)
    requires |tokens| >= 1
    requires forall k :: 0 <= k < |tokens| ==> |tokens[k]| > 0 && NoSpace(tokens[k])
    ensures SplitWs(JoinWith(tokens, " ")) == tokens
    decreases |tokens|
  {
    if |tokens| == 1 {
      SplitWsSingle(tokens[0]);
    } else {
      var rest := JoinWith(tokens[1..], " ");
      JoinWithHead(tokens[1..], " ");
      SplitWsAfterToken(tokens[0], rest);
      SplitWsJoin(tokens[1..]);
      assert tokens == [tokens[0]] + tokens[1..];
    }
  }

  /** A join starts with the first part when that part is not empty. */
  lemma JoinWithHead(parts: seq<string>, sep: string)
    requires |parts| >= 1 && |parts[0]| > 0
    ensures |JoinWith(parts, sep)| > 0 && JoinWith(parts, sep)[0] == parts[0][0]
  {
  }

  /** Parts and a separator without line breaks join to a text without line
      breaks. */
  lemma {:induction false} JoinWithNoLineBreak(parts: seq<string>, sep: string)
    requires NoLineBreak(sep)
    requires forall k :: 0 <= k < |parts| ==> NoLineBreak(parts[k])
    ensures NoLineBreak(JoinWith(parts, sep))
    decreases |parts|
  {
    if |parts| > 1 {
      JoinWithNoLineBreak(parts[1..], sep);
      var rest := JoinWith(parts[1..], sep);
      var s := parts[0] + sep + rest;
      forall i | 0 <= i < |s|
        ensures s[i] != '\n' && s[i] != '\r'
      {
        if i < |parts[0]| {
          assert s[i] == parts[0][i];
        } else if i < |parts[0]| + |sep| {
          assert s[i] == sep[i - |parts[0]|];
        } else {
          assert s[i] == rest[i - |parts[0]| - |sep|];
        }
      }
    }
  }
}
